=== FILE: README.md ===
# ELO ratings for the Bapn bot: a verified model

This project models the rating logic of the bot's ELO cog (`cogs/elo.py`) in
Dafny and proves properties of it. The cog keeps a dict from a player's
display name to a record `{rating, wins, losses}`. A reported match moves
rating from the loser to the winner. Players can be added and removed
explicitly. The leaderboard lists everyone by rating, highest first.

Modules:

- `RatingEngine` (`rating_engine.dfy`): the arithmetic of one match. This is
  `winFactor`, `eloFactor`, `eloChange` and `INCENTIVE_ELO`. Ratings are
  exact reals. The power term `|deltaWins| ** 1.489896102405` is a parameter
  of type `Power`. It is any function on the naturals that is zero at zero,
  non-negative and monotone, which every real power with a positive exponent
  is.
- `RatingStore` (`rating_store.dfy`): the dict itself. It is a map plus the
  insertion order of its keys, because Python dicts keep that order and the
  leaderboard breaks ties by it. This module has `get_elo` (a default read
  that inserts nothing), in-place writes, deletion, and the legacy upgrade
  of `load_elo`. JSON tells bare floats from bare ints, and only bare floats
  are upgraded (`isinstance(value, float)`), so a stored value is one of
  `BareFloat`, `BareInt` or `Full(record)`.
- `EloCog` (`elo_cog.dfy`): `update_elo` and the `winner`, `add-player` and
  `remove-player` commands, as functions from the store before to the store
  after, paired with the reply. Subscripting a stored value that is not a
  record raises `TypeError` in the source; here that is the error
  `NotARecord(name)`.
- `Leaderboard` (`leaderboard.dfy`): the stable descending sort, the win
  percentage and the position of each row.

Behaviour of the code that the model keeps on purpose:

- The code does not reject a tie. When `score1 == score2`, the `else`
  branch credits player 2 with the win (`EloCog.TieCreditsSecondPlayer`).
- `get_elo` returns the stored dict for a stored name, and a newly built
  default dict on every call for an absent one. So a stored name matched
  against itself is fetched twice as the same dict. All four in-place
  mutations then land on that one record, with a net effect of
  `+INCENTIVE_ELO`, one win and one loss (`EloCog.SelfMatch`).
- An absent name matched against itself in `update_elo` is fetched as two
  separate default dicts. Both are written under the one name, and player
  2's, written last, is kept. It carries only player 2's side of the match
  (`EloCog.AbsentSelfMatch`). `winner` stores the name before calling
  `update_elo`, so through `winner` the dicts are shared again
  (`EloCog.WinnerDiffersOnAbsentSelfMatch`). `Settle` applies the mutations
  to the fetched dicts by identity, and `EloCog.SharedRecord` says when the
  two fetches are one dict.
- If `update_elo` raises inside `winner`, the default records that `winner`
  created first stay in the in-memory dict. They are not saved at that
  point (`EloCog.Winner`).
- For an expected win, the factor is `|500 - gap|`. Once the favourite
  leads by more than 1000 points, that exceeds the 500 of an even match and
  grows with the gap (`RatingEngine.LopsidedExpectedWinOutweighsEven`).
  Because both branches take an absolute value, the `max(0, eloFactor)` at
  `cogs/elo.py:59` never changes anything (`RatingEngine.FactorNeverClamped`).

## Model

| member | source | states |
|---|---|---|
| `RatingEngine.WinFactor` | cogs/elo.py:48-51 | the win factor is at least 0.9, and exactly 0.9 when the score margin is zero |
| `RatingEngine.EloFactor` | cogs/elo.py:53-56 | the factor is non-negative and never exceeds the gap plus 500; equal ratings, upsets and zero margins give exactly the gap plus 500; an expected win gives `500 - gap` up to a gap of 500 and `gap - 500` beyond it |
| `RatingEngine.FactorNeverClamped` | cogs/elo.py:53-59 | `max(0, eloFactor)` always equals `eloFactor`, because the factor is never negative |
| `RatingEngine.LopsidedExpectedWinOutweighsEven` | cogs/elo.py:53-56 | an expected win by a favourite more than 1000 points ahead gives a larger factor than a match between equal ratings |
| `RatingEngine.EloChange` | cogs/elo.py:58-59 | the rating change of a match is at least one point for every input |
| `RatingEngine.IncentiveValue` | cogs/elo.py:60 | `INCENTIVE_ELO = 0.192 / 78.125` is exactly 0.0024576, so it is positive |
| `RatingEngine.EqualRatingsTakeUpsetBranch` | cogs/elo.py:53-56 | with equal ratings the condition `(elo1 - elo2) * deltaWins > 0` fails, so the factor is 500 whatever the margin |
| `RatingEngine.EloChangeSymmetric` | cogs/elo.py:48-59 | swapping the two ratings and negating the margin leaves the change unchanged |
| `RatingEngine.WiderMarginMovesMore` | cogs/elo.py:50-59 | for a fixed pair of ratings, a wider margin of the same sign never gives a smaller change |
| `RatingStore.GetElo` | cogs/elo.py:35-40 | a stored name reads as its stored value; an absent name reads as the default record 5000/0/0, and nothing is inserted |
| `RatingStore.Put` | cogs/elo.py:73-74 | assignment sets the name's value and leaves every other entry; a present key keeps its place in the order, a new key is appended at the end |
| `RatingStore.Without` | cogs/elo.py:131 | deleting a key keeps exactly the other keys, and keeps them distinct; an absent key changes nothing |
| `RatingStore.WithoutClosesGap` | cogs/elo.py:131 | deleting the key at position `i` leaves the keys before `i` followed by the keys after it, in their order: the slot is closed and nothing else moves |
| `RatingStore.Delete` | cogs/elo.py:130-131 | a deleted name is gone and every other entry stays; the key order loses only that name's slot; an absent name leaves the dict unchanged; well-formedness is kept |
| `RatingStore.DeleteThenGetIsDefault` | cogs/elo.py:35-40 | after deletion, `get_elo` returns the default record 5000/0/0 |
| `RatingStore.PutKeepsOrder` | cogs/elo.py:73-74 | writing a present key replaces its item in place; writing a new key appends it after all the others |
| `RatingStore.UpgradeAll` | cogs/elo.py:23-25 | the upgrade turns every bare float `r` into `{r, 0, 0}`, leaves bare ints and records unchanged, keeps keys and their order, and leaves no bare float behind |
| `RatingStore.UpgradeLegacy` | cogs/elo.py:23-27 | the in-place loop over the parsed items computes exactly the all-at-once upgrade |
| `RatingStore.Load` | cogs/elo.py:18-29 | a missing file or invalid JSON gives an empty dict; a parsed document becomes exactly its all-at-once upgrade, so it keeps its key order; either way no bare float remains |
| `RatingStore.UpgradeIdempotent` | cogs/elo.py:23-25 | upgrading an upgraded dict changes nothing |
| `RatingStore.SaveLoadRoundTrip` | cogs/elo.py:18-33 | saving a dict with no legacy values and loading it again gives back the same dict, order included |
| `EloCog.Settle` | cogs/elo.py:62-71 | the four in-place mutations give the winner `+INCENTIVE_ELO + eloChange` and a win and the loser `-eloChange` and a loss; when both are the same dict, only the incentive, a win and a loss remain |
| `EloCog.MatchRecords` | cogs/elo.py:43-71 | the two records written back: with two separate dicts player 1 is credited exactly when `score1 > score2`, otherwise player 2; one shared dict ends with `+INCENTIVE_ELO`, a win and a loss |
| `EloCog.ApplyMatch` | cogs/elo.py:73-74 | player 1's record is written, then player 2's; both names then hold records and every other entry stays as it was; a new player 1 is appended to the key order before a new player 2, and present keys keep their place |
| `EloCog.UpdateElo` | cogs/elo.py:42-75 | the update succeeds exactly when both names hold records or are absent, since absent reads as 5000/0/0; it fails on player 1's bad value before player 2's; on success the keys gain the two names, new names are appended player 1 first, every other entry is untouched, and the dicts are shared exactly when a stored name is matched against itself |
| `EloCog.MatchBetweenTwoPlayers` | cogs/elo.py:62-71 | between two different players the winner's rating rises by exactly `INCENTIVE_ELO + eloChange` and the loser's falls by exactly `eloChange`; one player gains a win, the other a loss |
| `EloCog.PlayerOneWins` | cogs/elo.py:62-66 | when `score1 > score2`, player 1 gains exactly `INCENTIVE_ELO + eloChange` and a win, and player 2 loses exactly `eloChange` and gains a loss |
| `EloCog.PlayerTwoWins` | cogs/elo.py:67-71 | when `score1 <= score2`, a tie included, player 2 gains exactly `INCENTIVE_ELO + eloChange` and a win, and player 1 loses exactly `eloChange` and gains a loss |
| `EloCog.MatchInjectsIncentive` | cogs/elo.py:58-71 | between two different players the sum of the ratings grows by exactly `INCENTIVE_ELO`; the winner gains more than one point and the loser loses at least one |
| `EloCog.SelfMatch` | cogs/elo.py:35-74 | a stored name matched against itself ends with its rating plus the incentive, one more win and one more loss |
| `EloCog.AbsentSelfMatch` | cogs/elo.py:35-74 | an absent name matched against itself is appended once, with player 2's separate record alone: `5000 - c` and a loss when `score1 > score2`, otherwise `5000 + INCENTIVE_ELO + c` and a win |
| `EloCog.CountersNeverDecrease` | cogs/elo.py:65-71 | recording a match never lowers any stored win or loss count, and every stored record stays a record |
| `EloCog.ApplyMatchSwapped` | cogs/elo.py:62-74 | listing the players the other way round, with the same winner, writes the same records |
| `EloCog.ListingOrderIrrelevant` | cogs/elo.py:48-74 | with a decisive score, swapping both the players and the scores gives the same dict contents, except for an absent name matched against itself |
| `EloCog.AbsentSelfMatchDependsOnListing` | cogs/elo.py:35-74 | for an absent name matched against itself, a 0-1 and a 1-0 result store different records |
| `EloCog.TieCreditsSecondPlayer` | cogs/elo.py:62-71 | on a tie the second-listed player gets the win and a strictly higher rating, and the first gets the loss |
| `EloCog.FreshPlayersTwoNil` | cogs/elo.py:42-74 | two unknown players and a 2-0 score: the key order becomes first player, second player; the first ends at `5000 + INCENTIVE_ELO + c` with one win and the second at `5000 - c` with one loss, where `c = (0.9 + 0.1 * 2^1.4899) * 96 + 1` |
| `EloCog.Materialise` | cogs/elo.py:82-85 | an absent name is appended with the default record and a present one is left alone; what `get_elo` reads for every name stays the same |
| `EloCog.Winner` | cogs/elo.py:78-90 | after the command both names are keys; it succeeds exactly when both names held records or were absent beforehand, and then replies with the two ratings now stored; on failure it raises on player 1's bad value before player 2's, and the store holds just the created defaults |
| `EloCog.Report` | cogs/elo.py:87-90 | after `update_elo` returns, `winner` keeps its store and replies with the two ratings read back from it; if it raised, the store with the created defaults is kept and the same error propagates |
| `EloCog.PutBothAfterMaterialise` | cogs/elo.py:82-87 | writing both names after creating their default records gives the same dict as writing them directly |
| `EloCog.WinnerAgreesWithUpdate` | cogs/elo.py:82-87 | creating the defaults first does not change the result: on success `winner` leaves exactly the dict `update_elo` alone would, order included, unless an absent name is matched against itself; on failure both raise the same error |
| `EloCog.WinnerOnAbsentSelfMatch` | cogs/elo.py:82-87 | for an absent name matched against itself, `winner` leaves the whole store pinned: the old store with the name appended holding 5000 plus the incentive, one win and one loss, and every other entry and key unchanged |
| `EloCog.WinnerDiffersOnAbsentSelfMatch` | cogs/elo.py:82-87 | for an absent name matched against itself, `winner` leaves the store pinned as above, and the name's record differs from what `update_elo` alone stores |
| `EloCog.AddPlayer` | cogs/elo.py:119-126 | an absent name is appended with 5000/0/0 and reported as added; a present name leaves the dict unchanged and its rating is reported, or the command raises when its value is not a record |
| `EloCog.AddPlayerIdempotent` | cogs/elo.py:120-126 | a second add of the same name changes nothing and reports the player as existing with rating 5000 |
| `EloCog.AddPlayerInvisibleToGetElo` | cogs/elo.py:120-122 | adding a player never changes what `get_elo` returns for any name |
| `EloCog.RemovePlayer` | cogs/elo.py:129-135 | removal reports whether the name was present; the name is then gone, every other entry stays, and the key order loses only that name's slot; an absent name changes nothing |
| `EloCog.RemoveThenReadIsDefault` | cogs/elo.py:130-132 | after removal `get_elo` returns the default record, and adding the name again starts from 5000/0/0 |
| `EloCog.ApplyMatchKeepsStoreUpgraded` | cogs/elo.py:73-74 | writing back a match result keeps the dict well formed and free of bare floats |
| `EloCog.WinnerKeepsStoreUpgraded` | cogs/elo.py:82-87 | the `winner` command keeps a loaded dict well formed and free of bare floats |
| `EloCog.AddAndRemoveKeepStoreUpgraded` | cogs/elo.py:120-131 | adding and removing players keep a loaded dict well formed and free of bare floats |
| `Leaderboard.Players` | cogs/elo.py:99 | the sort key applies to every item in order: it succeeds exactly when every value is a record, and otherwise fails on the first value that is not |
| `Leaderboard.Insert` | cogs/elo.py:99 | inserting into a descending sequence keeps it descending and adds exactly the new player |
| `Leaderboard.SortByRating` | cogs/elo.py:99 | the sort returns a permutation of its input ordered by non-increasing rating |
| `Leaderboard.InsertStable` | cogs/elo.py:99 | an inserted player goes ahead of every player with the same rating |
| `Leaderboard.SortStable` | cogs/elo.py:99 | for every rating, the players with that rating appear in the same order before and after the sort |
| `Leaderboard.WinPercentage` | cogs/elo.py:104-107 | the win percentage lies in [0, 100], is 0 with no games, and otherwise times the games played equals 100 times the wins |
| `Leaderboard.PositionOf` | cogs/elo.py:108 | rank 1 and only rank 1 gets gold, rank 2 silver, rank 3 bronze; every later rank gets the ordinal form carrying its own index |
| `Leaderboard.Standings` | cogs/elo.py:103-108 | the row loop gives one row per sorted player, in order, with position `index` counted from 1 and the player's win percentage |
| `Leaderboard.SortedPlayersAreTheStore` | cogs/elo.py:99 | after sorting the items, each player is stored under its name with its record, there are as many players as keys, and equal ratings keep insertion order |
| `Leaderboard.ComputeLeaderboard` | cogs/elo.py:98-108 | the board exists exactly when every value is a record; it lists every stored player once with its stored record, ratings non-increasing, ties in insertion order, positions numbered from 1, and win percentages as defined |

## Left out

- Discord plumbing is not modelled: slash-command registration, member
  display names, `async`/`await`, messages and embeds. The commands return
  their reply as data instead.
- File I/O and JSON are not modelled. `json.load` is represented by
  `Load`'s optional input, and `json.dump` by the store itself. `None`
  stands for the two errors the code catches, `FileNotFoundError` and
  `json.JSONDecodeError`. Other read errors propagate out of `load_elo`,
  such as a permission error or bytes that are not valid text; they are not
  modelled. A write failure propagating to the caller is not modelled
  either.
- JSON values other than numbers and records are not modelled. This covers
  strings, lists, null, booleans, and records lacking a field.
- A parsed document whose top level is not a JSON object is not modelled.
  The code's loop would raise on it.
- Record counts are naturals, so a loaded document with negative counts is
  out of scope.
- `RatingEngine.WinFactor`: the exact value of
  `abs(deltaWins) ** 1.489896102405` is not modelled. The `Power` parameter
  keeps only that it is zero at zero, non-negative and monotone.
- IEEE-754 rounding is not modelled. Ratings are exact reals, so the
  exact-sum property of `EloCog.MatchInjectsIncentive` holds only
  approximately for the Python floats.
- `EloCog.Winner`: the reply carries the new ratings as reals. The code
  rounds them up with `math.ceil` for display.
- `Leaderboard.ComputeLeaderboard`: the rating shown on each row is not
  rounded up. Positions are a datatype (`Gold`, `Silver`, `Bronze`,
  `Place(n)`) rather than the medal and `"{n}th"` strings. The embed text
  and two-decimal formatting are not modelled.
- Locking and concurrency are not modelled. The code has neither; each
  command is one atomic step of the model.

=== FILE: elo_cog.dfy ===
/**
 * The state-changing commands of the ELO cog (cogs/elo.py): recording a
 * match (`update_elo`, and the `winner` command around it), adding and
 * removing a player. Each command is a function from the store before to
 * the store after, paired with what the command reports back; the Discord
 * replies and the file write that follows each change are not modelled.
 */
module EloCog {
  import opened Wrappers
  import opened RatingEngine
  import opened RatingStore

  /** The store after a command, and either its reply or the error it raised. */
  datatype Outcome<T> = Outcome(store: Store, reply: Result<T, Error>)

  /** The two players' ratings after a recorded match (before rounding up). */
  datatype MatchReply = MatchReply(rating1: real, rating2: real)

  datatype AddReply = Added | AlreadyExists(rating: real)

  function AddRating(r: Record, amount: real): Record {
    r.(rating := r.rating + amount)
  }

  function AddWin(r: Record): Record {
    r.(wins := r.wins + 1)
  }

  function AddLoss(r: Record): Record {
    r.(losses := r.losses + 1)
  }

  /**
   * The in-place mutations of `update_elo` (lines 63-66, or 68-71 with the
   * roles swapped), applied to the fetched dicts, each known by a handle
   * standing for its identity. When winner and loser are the same dict, all
   * four mutations land on one record and the change cancels out.
   */
  function Settle(held: map<int, Record>, winner: int, loser: int, change: real)
    : (h: map<int, Record>)
    requires winner in held && loser in held
    ensures h.Keys == held.Keys
    ensures winner != loser ==>
              && h[winner] == Record(held[winner].rating + Incentive + change, held[winner].wins + 1, held[winner].losses)
              && h[loser] == Record(held[loser].rating - change, held[loser].wins, held[loser].losses + 1)
    ensures winner == loser ==>
              h[winner] == Record(held[winner].rating + Incentive, held[winner].wins + 1, held[winner].losses + 1)
  {
    var h := held[winner := AddRating(held[winner], Incentive + change)];
    var h := h[loser := AddRating(h[loser], -change)];
    var h := h[winner := AddWin(h[winner])];
    h[loser := AddLoss(h[loser])]
  }

  /**
   * Whether the two fetches of `update_elo` return one and the same dict.
   * `get_elo` hands out the stored dict for a stored name but builds a new
   * default dict on every call for an absent one, so only a stored name
   * matched against itself is fetched twice as the same object. (Two
   * different keys never share a dict: every stored dict comes from the
   * parsed document or from a fresh literal.)
   */
  predicate SharedRecord(s: Store, name1: string, name2: string) {
    name1 == name2 && name1 in s.data
  }

  /**
   * The two records `update_elo` writes back, for player 1 and player 2, once
   * both have been fetched and the change computed. Player 1's dict is
   * handle 1; player 2's is handle 1 too when `shared`, else handle 2.
   * Between separate dicts the winner gains the incentive plus the change
   * and a win, the loser gives up the change and gains a loss; one shared
   * dict keeps only the incentive, a win and a loss.
   */
  function MatchRecords(r1: Record, r2: Record, shared: bool, player1Wins: bool, change: real)
    : (after: (Record, Record))
    requires shared ==> r1 == r2
    ensures !shared && player1Wins ==>
              after == (Record(r1.rating + Incentive + change, r1.wins + 1, r1.losses),
                        Record(r2.rating - change, r2.wins, r2.losses + 1))
    ensures !shared && !player1Wins ==>
              after == (Record(r1.rating - change, r1.wins, r1.losses + 1),
                        Record(r2.rating + Incentive + change, r2.wins + 1, r2.losses))
    ensures shared ==>
              after.0 == after.1 == Record(r1.rating + Incentive, r1.wins + 1, r1.losses + 1)
  {
    var handle2 := if shared then 1 else 2;
    var winner := if player1Wins then 1 else handle2;
    var loser := if player1Wins then handle2 else 1;
    var h := Settle(map[1 := r1, handle2 := r2], winner, loser, change);
    (h[1], h[handle2])
  }

  /**
   * `update_elo` past its reads: write both records back, player 1 first, so
   * that for one name fetched as two dicts player 2's record is the one kept.
   */
  function ApplyMatch(s: Store, name1: string, r1: Record, name2: string, r2: Record,
                      shared: bool, player1Wins: bool, change: real): (t: Store)
    requires shared ==> r1 == r2
    ensures var after := MatchRecords(r1, r2, shared, player1Wins, change);
            t.data == s.data[name1 := Full(after.0)][name2 := Full(after.1)]
    ensures t.data.Keys == s.data.Keys + {name1, name2}
    ensures t.data[name1].Full? && t.data[name2].Full?
    ensures forall k :: k in s.data && k != name1 && k != name2 ==> t.data[k] == s.data[k]
    ensures t.order == (if name1 in s.data then s.order else s.order + [name1])
                       + (if name2 in s.data || name2 == name1 then [] else [name2])
  {
    var after := MatchRecords(r1, r2, shared, player1Wins, change);
    Put(Put(s, name1, Full(after.0)), name2, Full(after.1))
  }

  /**
   * `update_elo`. Both records are fetched (an absent name reads as a new
   * default record), and subscripting a fetched value that is not a record
   * raises, player 1's first. Player 1 wins exactly when `score1 > score2`:
   * a tie is not rejected and credits player 2.
   */
  function UpdateElo(pow: Power, s: Store, name1: string, name2: string, score1: int, score2: int)
    : (r: Result<Store, Error>)
    ensures r.Success? <==> GetElo(s, name1).Full? && GetElo(s, name2).Full?
    ensures r.Failure? ==> r.error == NotARecord(if GetElo(s, name1).Full? then name2 else name1)
    ensures r.Success? ==> r.value.data.Keys == s.data.Keys + {name1, name2}
    ensures r.Success? ==> r.value.data[name1].Full? && r.value.data[name2].Full?
    ensures r.Success? ==>
              r.value.order == (if name1 in s.data then s.order else s.order + [name1])
                               + (if name2 in s.data || name2 == name1 then [] else [name2])
    ensures r.Success? ==>
              forall k :: k in s.data && k != name1 && k != name2 ==> r.value.data[k] == s.data[k]
    ensures r.Success? ==>
              var r1 := GetElo(s, name1).rec;
              var r2 := GetElo(s, name2).rec;
              var change := EloChange(pow, r1.rating, r2.rating, score1 - score2);
              r.value == ApplyMatch(s, name1, r1, name2, r2, SharedRecord(s, name1, name2), score1 > score2, change)
  {
    var e1 := GetElo(s, name1);
    var e2 := GetElo(s, name2);
    if !e1.Full? then Failure(NotARecord(name1))
    else if !e2.Full? then Failure(NotARecord(name2))
    else
      var change := EloChange(pow, e1.rec.rating, e2.rec.rating, score1 - score2);
      Success(ApplyMatch(s, name1, e1.rec, name2, e2.rec, SharedRecord(s, name1, name2), score1 > score2, change))
  }

  lemma ApplyMatchBetweenTwo(s: Store, name1: string, r1: Record, name2: string, r2: Record,
                             player1Wins: bool, change: real)
    requires name1 != name2
    ensures var t := ApplyMatch(s, name1, r1, name2, r2, false, player1Wins, change);
            if player1Wins then
              && t.data[name1] == Full(Record(r1.rating + Incentive + change, r1.wins + 1, r1.losses))
              && t.data[name2] == Full(Record(r2.rating - change, r2.wins, r2.losses + 1))
            else
              && t.data[name2] == Full(Record(r2.rating + Incentive + change, r2.wins + 1, r2.losses))
              && t.data[name1] == Full(Record(r1.rating - change, r1.wins, r1.losses + 1))
  {
  }

  /** Player 1 scored more than player 2: player 1 is credited, player 2 debited. */
  lemma PlayerOneWins(pow: Power, s: Store, name1: string, name2: string, score1: int, score2: int)
    requires name1 != name2 && score1 > score2
    requires GetElo(s, name1).Full? && GetElo(s, name2).Full?
    ensures var r1 := GetElo(s, name1).rec;
            var r2 := GetElo(s, name2).rec;
            var change := EloChange(pow, r1.rating, r2.rating, score1 - score2);
            var t := UpdateElo(pow, s, name1, name2, score1, score2).value;
            && t.data[name1] == Full(Record(r1.rating + Incentive + change, r1.wins + 1, r1.losses))
            && t.data[name2] == Full(Record(r2.rating - change, r2.wins, r2.losses + 1))
  {
    var r1 := GetElo(s, name1).rec;
    var r2 := GetElo(s, name2).rec;
    var change := EloChange(pow, r1.rating, r2.rating, score1 - score2);
    assert UpdateElo(pow, s, name1, name2, score1, score2).value
        == ApplyMatch(s, name1, r1, name2, r2, false, true, change);
    ApplyMatchBetweenTwo(s, name1, r1, name2, r2, true, change);
  }

  /**
   * Player 1 did not score more (a loss or a tie): player 2 is credited,
   * player 1 debited.
   */
  lemma PlayerTwoWins(pow: Power, s: Store, name1: string, name2: string, score1: int, score2: int)
    requires name1 != name2 && score1 <= score2
    requires GetElo(s, name1).Full? && GetElo(s, name2).Full?
    ensures var r1 := GetElo(s, name1).rec;
            var r2 := GetElo(s, name2).rec;
            var change := EloChange(pow, r1.rating, r2.rating, score1 - score2);
            var t := UpdateElo(pow, s, name1, name2, score1, score2).value;
            && t.data[name2] == Full(Record(r2.rating + Incentive + change, r2.wins + 1, r2.losses))
            && t.data[name1] == Full(Record(r1.rating - change, r1.wins, r1.losses + 1))
  {
    var r1 := GetElo(s, name1).rec;
    var r2 := GetElo(s, name2).rec;
    var change := EloChange(pow, r1.rating, r2.rating, score1 - score2);
    assert UpdateElo(pow, s, name1, name2, score1, score2).value
        == ApplyMatch(s, name1, r1, name2, r2, false, false, change);
    ApplyMatchBetweenTwo(s, name1, r1, name2, r2, false, change);
  }

  /**
   * A match between two different players: the winner (player 1 exactly when
   * `score1 > score2`, so player 2 on a tie) gains the incentive plus the
   * change and one win; the loser gives up the change and gains one loss.
   */
  lemma MatchBetweenTwoPlayers(pow: Power, s: Store, name1: string, name2: string, score1: int, score2: int)
    requires name1 != name2
    requires GetElo(s, name1).Full? && GetElo(s, name2).Full?
    ensures var r1 := GetElo(s, name1).rec;
            var r2 := GetElo(s, name2).rec;
            var change := EloChange(pow, r1.rating, r2.rating, score1 - score2);
            var t := UpdateElo(pow, s, name1, name2, score1, score2).value;
            if score1 > score2 then
              && t.data[name1] == Full(Record(r1.rating + Incentive + change, r1.wins + 1, r1.losses))
              && t.data[name2] == Full(Record(r2.rating - change, r2.wins, r2.losses + 1))
            else
              && t.data[name2] == Full(Record(r2.rating + Incentive + change, r2.wins + 1, r2.losses))
              && t.data[name1] == Full(Record(r1.rating - change, r1.wins, r1.losses + 1))
  {
    if score1 > score2 {
      PlayerOneWins(pow, s, name1, name2, score1, score2);
    } else {
      PlayerTwoWins(pow, s, name1, name2, score1, score2);
    }
  }

  /**
   * Between two different players the winner strictly gains and the loser
   * strictly loses, and the two ratings together grow by exactly the
   * incentive: rating is not conserved, every match injects that bonus.
   */
  lemma MatchInjectsIncentive(pow: Power, s: Store, name1: string, name2: string, score1: int, score2: int)
    requires name1 != name2
    requires GetElo(s, name1).Full? && GetElo(s, name2).Full?
    ensures var old1 := GetElo(s, name1).rec.rating;
            var old2 := GetElo(s, name2).rec.rating;
            var t := UpdateElo(pow, s, name1, name2, score1, score2).value;
            var new1 := t.data[name1].rec.rating;
            var new2 := t.data[name2].rec.rating;
            && new1 + new2 == old1 + old2 + Incentive
            && (score1 > score2 ==> old1 + 1.0 < new1 && new2 <= old2 - 1.0)
            && (score1 <= score2 ==> old2 + 1.0 < new2 && new1 <= old1 - 1.0)
  {
    MatchBetweenTwoPlayers(pow, s, name1, name2, score1, score2);
    IncentiveValue();
  }

  /**
   * A stored player matched against themself: both fetches return the one
   * stored dict, so the gain and the loss cancel on it, leaving the
   * incentive, one win and one loss.
   */
  lemma SelfMatch(pow: Power, s: Store, name: string, score1: int, score2: int)
    requires name in s.data && s.data[name].Full?
    ensures var r := s.data[name].rec;
            var t := UpdateElo(pow, s, name, name, score1, score2).value;
            t.data[name] == Full(Record(r.rating + Incentive, r.wins + 1, r.losses + 1))
  {
  }

  /**
   * An unknown player matched against themself: each fetch builds its own
   * default dict, both are written under the one name, and player 2's,
   * written last, is kept. So the name is stored with player 2's side of the
   * match alone: a loss if player 1 scored more, a win otherwise.
   */
  lemma AbsentSelfMatch(pow: Power, s: Store, name: string, score1: int, score2: int)
    requires name !in s.data
    ensures var change := EloChange(pow, InitialRating, InitialRating, score1 - score2);
            var t := UpdateElo(pow, s, name, name, score1, score2).value;
            && t.order == s.order + [name]
            && (score1 > score2 ==> t.data[name] == Full(Record(InitialRating - change, 0, 1)))
            && (score1 <= score2 ==> t.data[name] == Full(Record(InitialRating + Incentive + change, 1, 0)))
  {
  }

  /**
   * Recording a match never lowers a stored win or loss count, and every
   * stored value that was a record stays one.
   */
  lemma CountersNeverDecrease(pow: Power, s: Store, name1: string, name2: string, score1: int, score2: int)
    requires UpdateElo(pow, s, name1, name2, score1, score2).Success?
    ensures var t := UpdateElo(pow, s, name1, name2, score1, score2).value;
            forall k :: k in s.data && s.data[k].Full? ==>
              && t.data[k].Full?
              && s.data[k].rec.wins <= t.data[k].rec.wins
              && s.data[k].rec.losses <= t.data[k].rec.losses
  {
    if name1 != name2 {
      MatchBetweenTwoPlayers(pow, s, name1, name2, score1, score2);
    } else if name1 in s.data {
      SelfMatch(pow, s, name1, score1, score2);
    }
  }

  /** Listing the players the other way round, with the winner unchanged, writes the same records. */
  lemma ApplyMatchSwapped(s: Store, name1: string, r1: Record, name2: string, r2: Record,
                          shared: bool, player1Wins: bool, change: real)
    requires shared ==> r1 == r2
    requires name1 == name2 ==> shared
    ensures ApplyMatch(s, name2, r2, name1, r1, shared, !player1Wins, change).data
         == ApplyMatch(s, name1, r1, name2, r2, shared, player1Wins, change).data
  {
    var a := MatchRecords(r1, r2, shared, player1Wins, change);
    var b := MatchRecords(r2, r1, shared, !player1Wins, change);
    assert a.0 == b.1 && a.1 == b.0;
    if name1 != name2 {
      assert s.data[name1 := Full(a.0)][name2 := Full(a.1)] == s.data[name2 := Full(b.0)][name1 := Full(b.1)];
    }
  }

  /**
   * With a decisive score the order in which the players are listed does not
   * matter. (On a tie it does: the second-listed player is credited. So it
   * does for an unknown name matched against itself, see
   * `AbsentSelfMatchDependsOnListing`.)
   */
  lemma ListingOrderIrrelevant(pow: Power, s: Store, name1: string, name2: string, score1: int, score2: int)
    requires score1 != score2
    requires name1 != name2 || name1 in s.data
    requires GetElo(s, name1).Full? && GetElo(s, name2).Full?
    ensures UpdateElo(pow, s, name2, name1, score2, score1).value.data
         == UpdateElo(pow, s, name1, name2, score1, score2).value.data
  {
    var r1 := GetElo(s, name1).rec;
    var r2 := GetElo(s, name2).rec;
    var change := EloChange(pow, r1.rating, r2.rating, score1 - score2);
    EloChangeSymmetric(pow, r1.rating, r2.rating, score1 - score2);
    assert change == EloChange(pow, r2.rating, r1.rating, score2 - score1);
    ApplyMatchSwapped(s, name1, r1, name2, r2, SharedRecord(s, name1, name2), score1 > score2, change);
    assert (score2 > score1) == !(score1 > score2);
  }

  /**
   * For an unknown name matched against itself the listing does matter: the
   * kept record is player 2's side, a loss for 1-0 and a win for 0-1.
   */
  lemma AbsentSelfMatchDependsOnListing(pow: Power, s: Store, name: string)
    requires name !in s.data
    ensures UpdateElo(pow, s, name, name, 0, 1).value.data
         != UpdateElo(pow, s, name, name, 1, 0).value.data
  {
    AbsentSelfMatch(pow, s, name, 0, 1);
    AbsentSelfMatch(pow, s, name, 1, 0);
    assert UpdateElo(pow, s, name, name, 1, 0).value.data[name].rec.wins == 0;
  }

  /** A tie is scored as a win for the second-listed player. */
  lemma TieCreditsSecondPlayer(pow: Power, s: Store, name1: string, name2: string, score: int)
    requires name1 != name2
    requires GetElo(s, name1).Full? && GetElo(s, name2).Full?
    ensures var t := UpdateElo(pow, s, name1, name2, score, score).value;
            && t.data[name2].rec.wins == GetElo(s, name2).rec.wins + 1
            && t.data[name1].rec.losses == GetElo(s, name1).rec.losses + 1
            && t.data[name2].rec.rating > GetElo(s, name2).rec.rating
  {
    MatchBetweenTwoPlayers(pow, s, name1, name2, score, score);
  }

  /**
   * Two new players, both at the initial rating, and a 2-0 result: the
   * ratings are equal, so the factor is 500 and the change is
   * `winFactor(2) * 500 * 0.192 + 1`; the first player gains it plus the
   * incentive, the second loses it.
   */
  lemma FreshPlayersTwoNil(pow: Power, alice: string, bob: string)
    requires alice != bob
    ensures var change := (0.9 + pow(2) * 0.1) * 96.0 + 1.0;
            var t := UpdateElo(pow, Empty, alice, bob, 2, 0).value;
            && t.order == [alice, bob]
            && t.data[alice] == Full(Record(InitialRating + Incentive + change, 1, 0))
            && t.data[bob] == Full(Record(InitialRating - change, 0, 1))
  {
    EqualRatingsTakeUpsetBranch(InitialRating, 2);
    assert EloChange(pow, InitialRating, InitialRating, 2) == (0.9 + pow(2) * 0.1) * 500.0 * 0.192 + 1.0;
  }

  /**
   * Insert the default record for a name that is not yet stored; what
   * `get_elo` reads for any name stays the same.
   */
  function Materialise(s: Store, name: string): (r: Store)
    ensures r.data.Keys == s.data.Keys + {name}
    ensures name in s.data ==> r == s
    ensures name !in s.data ==> r.data[name] == Full(DefaultRecord) && r.order == s.order + [name]
    ensures forall k :: GetElo(r, k) == GetElo(s, k)
  {
    if name in s.data then s else Put(s, name, Full(DefaultRecord))
  }

  /**
   * The `winner` command: create default records for unknown players, then
   * record the match and report both new ratings. If recording raises, the
   * defaults created first stay in the in-memory store.
   */
  function Winner(pow: Power, s: Store, name1: string, name2: string, score1: int, score2: int)
    : (o: Outcome<MatchReply>)
    ensures o.store.data.Keys == s.data.Keys + {name1, name2}
    ensures o.reply.Success? <==> GetElo(s, name1).Full? && GetElo(s, name2).Full?
    ensures o.reply.Success? ==>
              && o.store.data[name1].Full? && o.store.data[name2].Full?
              && o.reply.value == MatchReply(o.store.data[name1].rec.rating, o.store.data[name2].rec.rating)
    ensures o.reply.Failure? ==>
              && o.store == Materialise(Materialise(s, name1), name2)
              && o.reply.error == NotARecord(if GetElo(s, name1).Full? then name2 else name1)
  {
    var s1 := Materialise(Materialise(s, name1), name2);
    Report(s1, name1, name2, UpdateElo(pow, s1, name1, name2, score1, score2))
  }

  /** What `winner` is left with once `update_elo` has returned or raised. */
  function Report(s1: Store, name1: string, name2: string, u: Result<Store, Error>): (o: Outcome<MatchReply>)
    requires u.Success? ==> u.value.data.Keys == s1.data.Keys + {name1, name2}
    requires u.Success? ==> u.value.data[name1].Full? && u.value.data[name2].Full?
    ensures o.store == if u.Success? then u.value else s1
    ensures o.reply.Success? <==> u.Success?
    ensures u.Success? ==> o.reply.value == MatchReply(u.value.data[name1].rec.rating, u.value.data[name2].rec.rating)
    ensures u.Failure? ==> o.reply == Failure(u.error)
  {
    match u
    case Failure(e) => Outcome(s1, Failure(e))
    case Success(t) => Outcome(t, Success(MatchReply(t.data[name1].rec.rating, t.data[name2].rec.rating)))
  }

  /** Writing both names after materialising them is writing both names. */
  lemma PutBothAfterMaterialise(s: Store, name1: string, name2: string, e1: Entry, e2: Entry)
    ensures Put(Put(Materialise(Materialise(s, name1), name2), name1, e1), name2, e2)
         == Put(Put(s, name1, e1), name2, e2)
  {
  }

  /**
   * Creating the default records first is invisible on success, unless an
   * unknown name is matched against itself: the store `winner` leaves is
   * exactly the one `update_elo` alone produces, key order included. On
   * failure both raise the same error.
   */
  lemma WinnerAgreesWithUpdate(pow: Power, s: Store, name1: string, name2: string, score1: int, score2: int)
    ensures var u := UpdateElo(pow, s, name1, name2, score1, score2);
            var o := Winner(pow, s, name1, name2, score1, score2);
            && (u.Success? && (name1 != name2 || name1 in s.data) ==> o.store == u.value)
            && (u.Failure? ==> o.reply == Failure(u.error))
  {
    var s1 := Materialise(Materialise(s, name1), name2);
    assert GetElo(s1, name1) == GetElo(s, name1) && GetElo(s1, name2) == GetElo(s, name2);
    if UpdateElo(pow, s, name1, name2, score1, score2).Success? && (name1 != name2 || name1 in s.data) {
      var r1 := GetElo(s, name1).rec;
      var r2 := GetElo(s, name2).rec;
      var shared := SharedRecord(s, name1, name2);
      assert SharedRecord(s1, name1, name2) == shared;
      var change := EloChange(pow, r1.rating, r2.rating, score1 - score2);
      var after := MatchRecords(r1, r2, shared, score1 > score2, change);
      PutBothAfterMaterialise(s, name1, name2, Full(after.0), Full(after.1));
      assert ApplyMatch(s1, name1, r1, name2, r2, shared, score1 > score2, change)
          == ApplyMatch(s, name1, r1, name2, r2, shared, score1 > score2, change);
    }
  }

  /**
   * `winner` on an unknown name matched against itself: it stores the name
   * first, so both fetches share that dict, which ends with the incentive,
   * a win and a loss; nothing else in the store changes.
   */
  lemma WinnerOnAbsentSelfMatch(pow: Power, s: Store, name: string, score1: int, score2: int)
    requires name !in s.data
    ensures Winner(pow, s, name, name, score1, score2).store
         == Put(s, name, Full(Record(InitialRating + Incentive, 1, 1)))
  {
    var s1 := Materialise(s, name);
    assert s1.data[name] == Full(DefaultRecord);
    SelfMatch(pow, s1, name, score1, score2);
    var t := UpdateElo(pow, s1, name, name, score1, score2).value;
    assert Winner(pow, s, name, name, score1, score2).store == t;
    assert t.order == s1.order == s.order + [name];
    assert t.data == s.data[name := Full(Record(InitialRating + Incentive, 1, 1))];
  }

  /**
   * For an unknown name matched against itself `winner` and `update_elo`
   * differ: `update_elo` alone keeps player 2's separate record, which has
   * only one of the win and the loss.
   */
  lemma WinnerDiffersOnAbsentSelfMatch(pow: Power, s: Store, name: string, score1: int, score2: int)
    requires name !in s.data
    ensures Winner(pow, s, name, name, score1, score2).store
         == Put(s, name, Full(Record(InitialRating + Incentive, 1, 1)))
    ensures UpdateElo(pow, s, name, name, score1, score2).value.data[name]
         != Winner(pow, s, name, name, score1, score2).store.data[name]
  {
    WinnerOnAbsentSelfMatch(pow, s, name, score1, score2);
    AbsentSelfMatch(pow, s, name, score1, score2);
  }

  /**
   * The `add-player` command: an unknown name gets the default record,
   * appended at the end; a known one is left alone and its rating reported,
   * which raises if the stored value is not a record.
   */
  function AddPlayer(s: Store, name: string): (o: Outcome<AddReply>)
    ensures o.reply == Success(Added) <==> name !in s.data
    ensures name !in s.data ==>
              && o.store.data == s.data[name := Full(DefaultRecord)]
              && o.store.order == s.order + [name]
    ensures name in s.data ==> o.store == s
    ensures name in s.data && s.data[name].Full? ==>
              o.reply == Success(AlreadyExists(s.data[name].rec.rating))
    ensures name in s.data && !s.data[name].Full? ==> o.reply == Failure(NotARecord(name))
  {
    if name !in s.data then
      Outcome(Put(s, name, Full(DefaultRecord)), Success(Added))
    else
      match s.data[name]
      case Full(rec) => Outcome(s, Success(AlreadyExists(rec.rating)))
      case _ => Outcome(s, Failure(NotARecord(name)))
  }

  /**
   * Adding twice is adding once: the second call changes nothing and
   * reports the player as existing with the initial rating.
   */
  lemma AddPlayerIdempotent(s: Store, name: string)
    requires name !in s.data
    ensures var first := AddPlayer(s, name);
            var second := AddPlayer(first.store, name);
            && second.store == first.store
            && second.reply == Success(AlreadyExists(InitialRating))
  {
  }

  /** Adding a player never changes what `get_elo` returns for any name. */
  lemma AddPlayerInvisibleToGetElo(s: Store, name: string, other: string)
    ensures GetElo(AddPlayer(s, name).store, other) == GetElo(s, other)
  {
  }

  /**
   * The `remove-player` command: delete a known name (reporting true), leave
   * the store alone for an unknown one (reporting false).
   */
  function RemovePlayer(s: Store, name: string): (o: Outcome<bool>)
    ensures o.reply == Success(name in s.data)
    ensures o.store.data == s.data - {name}
    ensures s.Valid() ==> o.store.Valid() && forall k :: k in o.store.order <==> k in s.order && k != name
    ensures s.Valid() ==>
              forall i :: 0 <= i < |s.order| && s.order[i] == name ==> o.store.order == s.order[..i] + s.order[i + 1..]
    ensures name !in s.data ==> o.store == s
  {
    Outcome(Delete(s, name), Success(name in s.data))
  }

  /**
   * After removal the player is unknown: `get_elo` hands out a fresh default
   * record, and adding the name again starts over from the default.
   */
  lemma RemoveThenReadIsDefault(s: Store, name: string)
    ensures var t := RemovePlayer(s, name).store;
            && GetElo(t, name) == Full(DefaultRecord)
            && AddPlayer(t, name).reply == Success(Added)
            && AddPlayer(t, name).store.data[name] == Full(DefaultRecord)
  {
  }

  /** Recording a match keeps the dict well formed and free of the legacy shape. */
  lemma ApplyMatchKeepsStoreUpgraded(s: Store, name1: string, r1: Record, name2: string, r2: Record,
                                     shared: bool, player1Wins: bool, change: real)
    requires shared ==> r1 == r2
    requires s.Valid() && LegacyFree(s)
    ensures var t := ApplyMatch(s, name1, r1, name2, r2, shared, player1Wins, change);
            t.Valid() && LegacyFree(t)
  {
    var after := MatchRecords(r1, r2, shared, player1Wins, change);
    PutValid(s, name1, Full(after.0));
    PutValid(Put(s, name1, Full(after.0)), name2, Full(after.1));
  }

  /**
   * The commands never bring back the legacy bare-float shape, and keep the
   * dict well formed: a store that came out of loading stays that way.
   */
  lemma WinnerKeepsStoreUpgraded(pow: Power, s: Store, name1: string, name2: string, score1: int, score2: int)
    requires s.Valid() && LegacyFree(s)
    ensures var t := Winner(pow, s, name1, name2, score1, score2).store;
            t.Valid() && LegacyFree(t)
  {
    var m1 := Materialise(s, name1);
    PutValid(s, name1, Full(DefaultRecord));
    var s1 := Materialise(m1, name2);
    PutValid(m1, name2, Full(DefaultRecord));
    assert s1.Valid() && LegacyFree(s1);
    if UpdateElo(pow, s1, name1, name2, score1, score2).Success? {
      var r1 := GetElo(s1, name1).rec;
      var r2 := GetElo(s1, name2).rec;
      var change := EloChange(pow, r1.rating, r2.rating, score1 - score2);
      ApplyMatchKeepsStoreUpgraded(s1, name1, r1, name2, r2, SharedRecord(s1, name1, name2), score1 > score2, change);
    }
  }

  lemma AddAndRemoveKeepStoreUpgraded(s: Store, name: string)
    requires s.Valid() && LegacyFree(s)
    ensures AddPlayer(s, name).store.Valid() && LegacyFree(AddPlayer(s, name).store)
    ensures RemovePlayer(s, name).store.Valid() && LegacyFree(RemovePlayer(s, name).store)
  {
    PutValid(s, name, Full(DefaultRecord));
  }
}

=== FILE: leaderboard.dfy ===
/**
 * The computation behind the `leaderboard` command of cogs/elo.py: the
 * stored players ordered by rating, highest first, with ties left in the
 * dict's insertion order (Python's `sorted` is stable, also with
 * `reverse=True`), each with a position and a win percentage. Rounding the
 * rating up and formatting the embed are presentation and not modelled.
 */
module Leaderboard {
  import opened Wrappers
  import opened RatingStore

  datatype Player = Player(name: string, rec: Record)

  /**
   * The sort key `item[1]["rating"]` applied to every item in order: the
   * first stored value that is not a record raises.
   */
  function Players(items: seq<Item>): (r: Result<seq<Player>, Error>)
    ensures r.Success? <==> forall i :: 0 <= i < |items| ==> items[i].entry.Full?
    ensures r.Success? ==>
              && |r.value| == |items|
              && forall i :: 0 <= i < |items| ==> r.value[i] == Player(items[i].name, items[i].entry.rec)
    ensures r.Failure? ==>
              exists i :: && 0 <= i < |items|
                          && !items[i].entry.Full?
                          && r.error == NotARecord(items[i].name)
                          && forall j :: 0 <= j < i ==> items[j].entry.Full?
  {
    if items == [] then Success([])
    else if !items[0].entry.Full? then Failure(NotARecord(items[0].name))
    else
      match Players(items[1..])
      case Failure(e) =>
        ghost var i :| && 0 <= i < |items[1..]|
                       && !items[1..][i].entry.Full?
                       && e == NotARecord(items[1..][i].name)
                       && forall j :: 0 <= j < i ==> items[1..][j].entry.Full?;
        assert items[i + 1] == items[1..][i];
        Failure(e)
      case Success(rest) => Success([Player(items[0].name, items[0].entry.rec)] + rest)
  }

  /** Ratings never increase from one player to the next. */
  ghost predicate Descending(ps: seq<Player>) {
    forall i, j :: 0 <= i < j < |ps| ==> ps[i].rec.rating >= ps[j].rec.rating
  }

  lemma ConsDescending(x: Player, ps: seq<Player>)
    requires Descending(ps)
    requires ps == [] || ps[0].rec.rating <= x.rec.rating
    ensures Descending([x] + ps)
  {
    var xs := [x] + ps;
    forall i, j | 0 <= i < j < |xs|
      ensures xs[i].rec.rating >= xs[j].rec.rating
    {
      if i == 0 && 1 < j {
        assert xs[j] == ps[j - 1];
      }
    }
  }

  lemma TailDescending(ps: seq<Player>)
    requires ps != [] && Descending(ps)
    ensures Descending(ps[1..])
  {
    forall i, j | 0 <= i < j < |ps| - 1
      ensures ps[1..][i].rec.rating >= ps[1..][j].rec.rating
    {
      assert ps[1..][i] == ps[i + 1] && ps[1..][j] == ps[j + 1];
    }
  }

  /**
   * Insert a player into a descending sequence in front of the first player
   * rated no higher, so that the inserted player, which came first in the
   * input, stays ahead of the players it ties with.
   */
  function Insert(p: Player, sorted: seq<Player>): (r: seq<Player>)
    requires Descending(sorted)
    ensures Descending(r)
    ensures |r| == |sorted| + 1
    ensures r[0] == p || (sorted != [] && r[0] == sorted[0])
    ensures multiset(r) == multiset(sorted) + multiset{p}
  {
    if sorted == [] || sorted[0].rec.rating <= p.rec.rating then
      ConsDescending(p, sorted);
      [p] + sorted
    else
      TailDescending(sorted);
      var rest := Insert(p, sorted[1..]);
      assert sorted == [sorted[0]] + sorted[1..];
      assert multiset([sorted[0]] + rest) == multiset{sorted[0]} + multiset(rest);
      ConsDescending(sorted[0], rest);
      [sorted[0]] + rest
  }

  /** `sorted(..., key=rating, reverse=True)`: a stable sort, highest rating first. */
  function SortByRating(ps: seq<Player>): (r: seq<Player>)
    ensures Descending(r)
    ensures multiset(r) == multiset(ps)
  {
    if ps == [] then []
    else
      assert ps == [ps[0]] + ps[1..];
      Insert(ps[0], SortByRating(ps[1..]))
  }

  /** The players of one rating, in their order of appearance. */
  function WithRating(ps: seq<Player>, v: real): seq<Player> {
    if ps == [] then []
    else (if ps[0].rec.rating == v then [ps[0]] else []) + WithRating(ps[1..], v)
  }

  lemma WithRatingCons(x: Player, ps: seq<Player>, v: real)
    ensures WithRating([x] + ps, v) == (if x.rec.rating == v then [x] else []) + WithRating(ps, v)
  {
    assert ([x] + ps)[1..] == ps;
  }

  lemma {:induction false} InsertStable(p: Player, sorted: seq<Player>, v: real)
    requires Descending(sorted)
    ensures WithRating(Insert(p, sorted), v) == (if p.rec.rating == v then [p] else []) + WithRating(sorted, v)
  {
    if sorted == [] || sorted[0].rec.rating <= p.rec.rating {
      WithRatingCons(p, sorted, v);
    } else {
      TailDescending(sorted);
      var rest := Insert(p, sorted[1..]);
      assert Insert(p, sorted) == [sorted[0]] + rest;
      WithRatingCons(sorted[0], rest, v);
      InsertStable(p, sorted[1..], v);
      assert sorted == [sorted[0]] + sorted[1..];
      WithRatingCons(sorted[0], sorted[1..], v);
      OneSideEmpty(if p.rec.rating == v then [p] else [],
                   if sorted[0].rec.rating == v then [sorted[0]] else [],
                   WithRating(sorted[1..], v));
    }
  }

  /** Two prefixes of which one is empty can be applied in either order. */
  lemma OneSideEmpty(mine: seq<Player>, head: seq<Player>, tail: seq<Player>)
    requires mine == [] || head == []
    ensures head + (mine + tail) == mine + (head + tail)
  {
  }

  /**
   * The sort is stable: for every rating, the players holding it appear in
   * the same order before and after sorting. Together with being descending
   * and a permutation, this pins the output down completely.
   */
  lemma {:induction false} SortStable(ps: seq<Player>, v: real)
    ensures WithRating(SortByRating(ps), v) == WithRating(ps, v)
  {
    if ps != [] {
      SortStable(ps[1..], v);
      InsertStable(ps[0], SortByRating(ps[1..]), v);
    }
  }

  /** Wins as a share of games played, in percent; 0 when no game was played. */
  function WinPercentage(wins: nat, losses: nat): (p: real)
    ensures 0.0 <= p <= 100.0
    ensures wins + losses == 0 ==> p == 0.0
    ensures wins + losses > 0 ==> p * (wins + losses) as real == 100.0 * wins as real
  {
    var total := wins + losses;
    if total > 0 then wins as real / total as real * 100.0 else 0.0
  }

  /** A medal for the first three places, a plain ordinal ("{index}th") after. */
  datatype Position = Gold | Silver | Bronze | Place(index: nat)

  function PositionOf(index: nat): (pos: Position)
    requires 1 <= index
    ensures pos == Gold <==> index == 1
    ensures pos == Silver <==> index == 2
    ensures pos == Bronze <==> index == 3
    ensures pos.Place? <==> 3 < index
    ensures pos.Place? ==> pos.index == index
  {
    if index == 1 then Gold
    else if index == 2 then Silver
    else if index == 3 then Bronze
    else Place(index)
  }

  /** One field of the leaderboard embed. */
  datatype Standing = Standing(position: Position, player: Player, winPercentage: real)

  function PlayersOf(rows: seq<Standing>): seq<Player> {
    seq(|rows|, i requires 0 <= i < |rows| => rows[i].player)
  }

  /**
   * The leaderboard: every stored player exactly once, highest rating first,
   * ties in insertion order, numbered from 1. Raises if some stored value is
   * not a record.
   */
  method ComputeLeaderboard(s: Store) returns (r: Result<seq<Standing>, Error>)
    requires s.Valid()
    ensures r.Success? <==> forall k :: k in s.data ==> s.data[k].Full?
    ensures r.Failure? ==> Players(Items(s)) == Failure(r.error)
    ensures r.Success? ==> |r.value| == |s.data|
    ensures r.Success? ==>
              forall i :: 0 <= i < |r.value| ==>
                var p := r.value[i].player;
                && r.value[i].position == PositionOf(i + 1)
                && p.name in s.data && s.data[p.name] == Full(p.rec)
                && r.value[i].winPercentage == WinPercentage(p.rec.wins, p.rec.losses)
    ensures r.Success? ==> Descending(PlayersOf(r.value))
    ensures r.Success? ==>
              && Players(Items(s)).Success?
              && multiset(PlayersOf(r.value)) == multiset(Players(Items(s)).value)
              && forall v :: WithRating(PlayersOf(r.value), v) == WithRating(Players(Items(s)).value, v)
  {
    var items := Items(s);
    AllRecordsIffItemsAreRecords(s);
    var players :- Players(items);
    var sorted := SortByRating(players);
    var rows := Standings(sorted);
    SortedPlayersAreTheStore(s, players, sorted);
    r := Success(rows);
  }

  /**
   * The `enumerate(sorted_elo, start=1)` loop: one row per player, in the
   * given order, numbered from 1 and carrying the win percentage.
   */
  method Standings(sorted: seq<Player>) returns (rows: seq<Standing>)
    ensures |rows| == |sorted|
    ensures PlayersOf(rows) == sorted
    ensures forall j :: 0 <= j < |rows| ==>
              rows[j] == Standing(PositionOf(j + 1), sorted[j], WinPercentage(sorted[j].rec.wins, sorted[j].rec.losses))
  {
    rows := [];
    var i := 0;
    while i < |sorted|
      invariant 0 <= i <= |sorted|
      invariant |rows| == i
      invariant forall j :: 0 <= j < i ==>
                  rows[j] == Standing(PositionOf(j + 1), sorted[j], WinPercentage(sorted[j].rec.wins, sorted[j].rec.losses))
    {
      var p := sorted[i];
      rows := rows + [Standing(PositionOf(i + 1), p, WinPercentage(p.rec.wins, p.rec.losses))];
      i := i + 1;
    }
  }

  /**
   * The sorted players of a dict whose values are all records: each is
   * stored under its name with its record, there are as many as keys, and
   * players of equal rating keep their insertion order.
   */
  lemma SortedPlayersAreTheStore(s: Store, players: seq<Player>, sorted: seq<Player>)
    requires s.Valid()
    requires Players(Items(s)) == Success(players)
    requires sorted == SortByRating(players)
    ensures |sorted| == |s.data|
    ensures forall j :: 0 <= j < |sorted| ==>
              sorted[j].name in s.data && s.data[sorted[j].name] == Full(sorted[j].rec)
    ensures forall v :: WithRating(sorted, v) == WithRating(players, v)
  {
    forall v
      ensures WithRating(sorted, v) == WithRating(players, v)
    {
      SortStable(players, v);
    }
    PermutedPlayersAreStored(s, players, sorted);
    StoreSize(s);
  }

  /** Every player of a reordering of the items is stored under its name. */
  lemma PermutedPlayersAreStored(s: Store, players: seq<Player>, sorted: seq<Player>)
    requires s.Valid()
    requires Players(Items(s)) == Success(players)
    requires multiset(sorted) == multiset(players)
    ensures forall j :: 0 <= j < |sorted| ==>
              sorted[j].name in s.data && s.data[sorted[j].name] == Full(sorted[j].rec)
  {
    forall j | 0 <= j < |sorted|
      ensures sorted[j].name in s.data && s.data[sorted[j].name] == Full(sorted[j].rec)
    {
      assert sorted[j] in multiset(players);
      var m :| 0 <= m < |players| && players[m] == sorted[j];
      assert Items(s)[m] == Item(s.order[m], s.data[s.order[m]]);
    }
  }

  /** Every stored value is a record exactly when every item is. */
  lemma AllRecordsIffItemsAreRecords(s: Store)
    requires s.Valid()
    ensures (forall k :: k in s.data ==> s.data[k].Full?)
        <==> (forall i :: 0 <= i < |Items(s)| ==> Items(s)[i].entry.Full?)
  {
    if forall i :: 0 <= i < |Items(s)| ==> Items(s)[i].entry.Full? {
      forall k | k in s.data
        ensures s.data[k].Full?
      {
        var i :| 0 <= i < |s.order| && s.order[i] == k;
        assert Items(s)[i].entry == s.data[k];
      }
    }
  }

  /** The insertion order lists each key once, so it is as long as the dict. */
  lemma StoreSize(s: Store)
    requires s.Valid()
    ensures |s.order| == |s.data|
  {
    OrderCoversKeys(s.order, s.data.Keys);
  }

  lemma {:induction false} OrderCoversKeys(order: seq<string>, keys: set<string>)
    requires Distinct(order)
    requires forall k :: k in order <==> k in keys
    ensures |order| == |keys|
  {
    if order != [] {
      var rest := order[1..];
      assert forall k :: k in rest <==> k in keys - {order[0]};
      OrderCoversKeys(rest, keys - {order[0]});
    }
  }
}

=== FILE: rating_engine.dfy ===
/**
 * The arithmetic of one rated match (`update_elo` in cogs/elo.py): how the
 * score margin and the rating gap turn into the amount of rating that moves
 * from the loser to the winner.
 *
 * Ratings are mathematical reals, not IEEE doubles, so the sums below are
 * exact where the source's are only approximately so.
 */
module RatingEngine {

  /**
   * The power term `|deltaWins| ** 1.489896102405`. A real power with a
   * non-integer exponent has no closed form here, so the model takes it as a
   * parameter and keeps only the facts every such power has: it is zero at
   * zero, never negative, and grows with its argument.
   */
  type Power = f: nat -> real
    | && f(0) == 0.0
      && (forall n: nat :: 0.0 <= f(n))
      && (forall m: nat, n: nat :: m <= n ==> f(m) <= f(n))
    witness (n: nat) => n as real

  /** ELO_CHANGE_CONSTANT: scales the factors into rating points. */
  const ChangeConstant: real := 0.192

  /** INCENTIVE_ELO: the bonus every winner receives on top of the swing. */
  const Incentive: real := ChangeConstant / 78.125

  /**
   * The pivot of eloFactor: an expected win is worth the distance of the
   * rating gap from this value.
   */
  const GapThreshold: real := 500.0

  function Abs(x: real): real {
    if x < 0.0 then -x else x
  }

  function AbsInt(x: int): nat {
    if x < 0 then -x else x
  }

  function Max(a: real, b: real): real {
    if a < b then b else a
  }

  /** winFactor: 0.9 for a zero margin, growing with the margin. */
  function WinFactor(pow: Power, deltaWins: int): (w: real)
    ensures 0.9 <= w
    ensures deltaWins == 0 ==> w == 0.9
  {
    0.9 + pow(AbsInt(deltaWins)) * 0.1
  }

  /**
   * eloFactor. If the higher-rated player won (rating gap and score margin
   * have the same sign) the factor is the distance of the gap from 500;
   * otherwise (an upset, equal ratings or a zero margin) it is the gap plus
   * 500.
   */
  function EloFactor(elo1: real, elo2: real, deltaWins: int): (f: real)
    ensures 0.0 <= f <= Abs(elo2 - elo1) + GapThreshold
    ensures !((elo1 - elo2) * deltaWins as real > 0.0) ==> f == Abs(elo2 - elo1) + GapThreshold
    ensures (elo1 - elo2) * deltaWins as real > 0.0 && Abs(elo2 - elo1) <= GapThreshold ==>
              f == GapThreshold - Abs(elo2 - elo1)
    ensures (elo1 - elo2) * deltaWins as real > 0.0 && Abs(elo2 - elo1) > GapThreshold ==>
              f == Abs(elo2 - elo1) - GapThreshold
  {
    if (elo1 - elo2) * deltaWins as real > 0.0 then
      Abs(0.0 - Abs(elo2 - elo1) + GapThreshold)
    else
      Abs(elo2 - elo1) + GapThreshold
  }

  /** eloChange: the amount the loser gives up; never less than one point. */
  function EloChange(pow: Power, elo1: real, elo2: real, deltaWins: int): (c: real)
    ensures 1.0 <= c
  {
    var f := Max(0.0, EloFactor(elo1, elo2, deltaWins));
    var w := WinFactor(pow, deltaWins);
    assert 0.0 <= w * f by { ProductNonNegative(w, f); }
    w * f * ChangeConstant + 1.0
  }

  lemma ProductNonNegative(a: real, b: real)
    requires 0.0 <= a && 0.0 <= b
    ensures 0.0 <= a * b
  {
  }

  /** The bonus is strictly positive: exactly 0.0024576 rating points. */
  lemma IncentiveValue()
    ensures Incentive == 0.0024576
    ensures 0.0 < Incentive
  {
  }

  /** Equal ratings always take the upset branch, whatever the margin. */
  lemma EqualRatingsTakeUpsetBranch(elo: real, deltaWins: int)
    ensures EloFactor(elo, elo, deltaWins) == GapThreshold
  {
  }

  /**
   * The change does not depend on which player is listed first: swapping the
   * players and negating the margin gives the same amount.
   */
  lemma EloChangeSymmetric(pow: Power, elo1: real, elo2: real, deltaWins: int)
    ensures EloChange(pow, elo1, elo2, deltaWins) == EloChange(pow, elo2, elo1, -deltaWins)
  {
    assert (elo1 - elo2) * deltaWins as real == (elo2 - elo1) * (-deltaWins) as real;
    assert Abs(elo2 - elo1) == Abs(elo1 - elo2);
  }

  /**
   * A wider margin of the same sign moves at least as much rating: the branch
   * is fixed by the sign, and the power term grows with the margin.
   */
  lemma WiderMarginMovesMore(pow: Power, elo1: real, elo2: real, d1: int, d2: int)
    requires (0 < d1 <= d2) || (d2 <= d1 < 0)
    ensures EloChange(pow, elo1, elo2, d1) <= EloChange(pow, elo1, elo2, d2)
  {
    var f := Max(0.0, EloFactor(elo1, elo2, d1));
    assert (elo1 - elo2) * d1 as real > 0.0 <==> (elo1 - elo2) * d2 as real > 0.0 by {
      SameSignProducts(elo1 - elo2, d1, d2);
    }
    assert f == Max(0.0, EloFactor(elo1, elo2, d2));
    var w1 := WinFactor(pow, d1);
    var w2 := WinFactor(pow, d2);
    assert AbsInt(d1) <= AbsInt(d2);
    assert pow(AbsInt(d1)) <= pow(AbsInt(d2));
    assert w1 <= w2;
    assert 0.0 <= f;
    ProductNonNegative(w2 - w1, f * ChangeConstant);
    assert (w2 - w1) * (f * ChangeConstant) == w2 * f * ChangeConstant - w1 * f * ChangeConstant;
  }

  /**
   * The clamp `max(0, eloFactor)` of line 59 never bites: both branches take
   * an absolute value, so the factor is never negative.
   */
  lemma FactorNeverClamped(elo1: real, elo2: real, deltaWins: int)
    ensures Max(0.0, EloFactor(elo1, elo2, deltaWins)) == EloFactor(elo1, elo2, deltaWins)
  {
  }

  /**
   * An expected win by a favourite more than 1000 points ahead is worth more
   * than a win between equals: past a gap of 1000 the distance from 500
   * exceeds 500 again and keeps growing with the gap.
   */
  lemma LopsidedExpectedWinOutweighsEven(elo1: real, elo2: real, deltaWins: int)
    requires (elo1 - elo2) * deltaWins as real > 0.0
    requires Abs(elo2 - elo1) > 2.0 * GapThreshold
    ensures EloFactor(elo1, elo2, deltaWins) > EloFactor(elo1, elo1, deltaWins)
  {
    EqualRatingsTakeUpsetBranch(elo1, deltaWins);
  }

  lemma SameSignProducts(g: real, d1: int, d2: int)
    requires (0 < d1 && 0 < d2) || (d1 < 0 && d2 < 0)
    ensures g * d1 as real > 0.0 <==> g * d2 as real > 0.0
  {
    if 0 < d1 {
      if g > 0.0 { ProductNonNegative(g, d1 as real); }
    }
  }
}

=== FILE: rating_store.dfy ===
/**
 * The player-record store of cogs/elo.py: a Python dict from display name to
 * record, read with a default, written in place, deleted from, and upgraded
 * from its legacy shape when loaded.
 *
 * A Python dict remembers insertion order: assigning to a present key keeps
 * its place, a new key goes to the end, and deleting a key closes the gap.
 * The model keeps that order next to the map because the leaderboard's
 * tie-breaking depends on it.
 */
module RatingStore {
  import opened Wrappers

  /** INITIAL_RATING: the rating of a player seen for the first time. */
  const InitialRating: real := 5000.0

  /** A full player record: `{"rating": r, "wins": w, "losses": l}`. */
  datatype Record = Record(rating: real, wins: nat, losses: nat)

  /** The record `get_elo` hands out for a name it does not know. */
  const DefaultRecord: Record := Record(InitialRating, 0, 0)

  /**
   * A value of the persisted JSON document. Besides full records, an older
   * version of the bot stored a bare number per player; JSON tells a float
   * (`5000.0`) from an int (`5000`), and the loader treats them differently.
   */
  datatype Entry =
    | BareFloat(value: real)
    | BareInt(number: int)
    | Full(rec: Record)

  /** Subscripting a stored value that is not a record raises TypeError. */
  datatype Error = NotARecord(name: string)

  datatype Item = Item(name: string, entry: Entry)

  predicate Distinct(names: seq<string>) {
    forall i, j :: 0 <= i < j < |names| ==> names[i] != names[j]
  }

  /** The dict: its keys in insertion order, and the key-value map. */
  datatype Store = Store(order: seq<string>, data: map<string, Entry>) {
    /** Every key appears exactly once in the insertion order. */
    ghost predicate Valid() {
      && Distinct(order)
      && (forall k :: k in order <==> k in data)
    }
  }

  const Empty: Store := Store([], map[])

  /** `dict.items()`: the entries in insertion order. */
  function Items(s: Store): seq<Item>
    requires s.Valid()
  {
    seq(|s.order|, i requires 0 <= i < |s.order| => Item(s.order[i], s.data[s.order[i]]))
  }

  /** `get_elo`: the stored value, or a fresh default record (not inserted). */
  function GetElo(s: Store, name: string): (e: Entry)
    ensures name in s.data ==> e == s.data[name]
    ensures name !in s.data ==> e == Full(DefaultRecord)
  {
    if name in s.data then s.data[name] else Full(DefaultRecord)
  }

  /** `d[name] = e`: overwrite in place, or append a new key. */
  function Put(s: Store, name: string, e: Entry): (r: Store)
    ensures r.data == s.data[name := e]
    ensures name in s.data ==> r.order == s.order
    ensures name !in s.data ==> r.order == s.order + [name]
  {
    if name in s.data then
      Store(s.order, s.data[name := e])
    else
      Store(s.order + [name], s.data[name := e])
  }

  /** The insertion order with one name taken out, the rest in their order. */
  function Without(names: seq<string>, name: string): (r: seq<string>)
    ensures forall k :: k in r <==> k in names && k != name
    ensures Distinct(names) ==> Distinct(r)
    ensures |r| <= |names|
    ensures name !in names ==> r == names
  {
    if names == [] then []
    else if names[0] == name then Without(names[1..], name)
    else
      var rest := Without(names[1..], name);
      assert Distinct(names) ==> names[0] !in names[1..] && Distinct(names[1..]);
      [names[0]] + rest
  }

  /**
   * Deleting a key from a distinct order closes its slot: the keys before it
   * and the keys after it stay where they were relative to each other.
   */
  lemma {:induction false} WithoutClosesGap(names: seq<string>, name: string, i: nat)
    requires i < |names| && names[i] == name
    requires name !in names[..i] && name !in names[i + 1..]
    ensures Without(names, name) == names[..i] + names[i + 1..]
  {
    var tail := names[1..];
    if i == 0 {
      assert names[..0] + names[1..] == tail;
    } else {
      assert names[..i] == [names[0]] + tail[..i - 1];
      assert tail[i..] == names[i + 1..];
      WithoutClosesGap(tail, name, i - 1);
    }
  }

  /** `WithoutClosesGap` at whichever position the key sits. */
  lemma WithoutClosesGapAt(names: seq<string>, name: string)
    requires Distinct(names)
    ensures forall i :: 0 <= i < |names| && names[i] == name ==>
              Without(names, name) == names[..i] + names[i + 1..]
  {
    forall i | 0 <= i < |names| && names[i] == name
      ensures Without(names, name) == names[..i] + names[i + 1..]
    {
      assert name !in names[..i] && name !in names[i + 1..] by {
        forall j | 0 <= j < |names| && j != i ensures names[j] != names[i] {
        }
      }
      WithoutClosesGap(names, name, i);
    }
  }

  /** `d[name] = e` keeps the dict well formed. */
  lemma PutValid(s: Store, name: string, e: Entry)
    requires s.Valid()
    ensures Put(s, name, e).Valid()
  {
  }

  /** `del d[name]` for a present name; nothing happens for an absent one. */
  function Delete(s: Store, name: string): (r: Store)
    ensures name !in r.data
    ensures r.data == s.data - {name}
    ensures name !in s.data ==> r == s
    ensures s.Valid() ==> r.Valid()
    ensures s.Valid() ==>
              forall i :: 0 <= i < |s.order| && s.order[i] == name ==> r.order == s.order[..i] + s.order[i + 1..]
  {
    if name in s.data then
      if Distinct(s.order) then WithoutClosesGapAt(s.order, name); Store(Without(s.order, name), s.data - {name})
      else Store(Without(s.order, name), s.data - {name})
    else s
  }

  /** The load-time upgrade of one value: only a bare float becomes a record. */
  function Upgrade(e: Entry): Entry {
    match e
    case BareFloat(r) => Full(Record(r, 0, 0))
    case _ => e
  }

  /** No value of the store is in the legacy bare-float shape. */
  predicate LegacyFree(s: Store) {
    forall k :: k in s.data ==> !s.data[k].BareFloat?
  }

  /**
   * Reference definition of the upgrade: every value upgraded at once, keys
   * and their order untouched.
   */
  function UpgradeAll(s: Store): (r: Store)
    ensures LegacyFree(r)
    ensures s.Valid() ==> r.Valid()
    ensures r.order == s.order && r.data.Keys == s.data.Keys
    ensures forall k :: k in s.data && s.data[k].BareFloat? ==>
              r.data[k] == Full(Record(s.data[k].value, 0, 0))
    ensures forall k :: k in s.data && !s.data[k].BareFloat? ==> r.data[k] == s.data[k]
  {
    Store(s.order, map k | k in s.data :: Upgrade(s.data[k]))
  }

  /**
   * The upgrade loop of `load_elo`: walk the parsed document in order and
   * replace each bare float by a full record, in place.
   */
  method UpgradeLegacy(data: Store) returns (r: Store)
    requires data.Valid()
    ensures r == UpgradeAll(data)
  {
    r := data;
    var i := 0;
    while i < |data.order|
      invariant 0 <= i <= |data.order|
      invariant r.Valid()
      invariant r.order == data.order
      invariant r.data.Keys == data.data.Keys
      invariant forall j :: 0 <= j < i ==> r.data[data.order[j]] == Upgrade(data.data[data.order[j]])
      invariant forall j :: i <= j < |data.order| ==> r.data[data.order[j]] == data.data[data.order[j]]
    {
      var player := data.order[i];
      var value := r.data[player];
      assert forall j :: 0 <= j < |data.order| && j != i ==> data.order[j] != player;
      if value.BareFloat? {
        PutValid(r, player, Full(Record(value.value, 0, 0)));
        r := Put(r, player, Full(Record(value.value, 0, 0)));
      }
      i := i + 1;
    }
    forall k | k in data.data
      ensures r.data[k] == Upgrade(data.data[k])
    {
      var j :| 0 <= j < |data.order| && data.order[j] == k;
    }
  }

  /**
   * `load_elo` after parsing: a missing file or one that is not valid JSON
   * (None) gives an empty store, a parsed document is upgraded.
   */
  function Load(parsed: Option<Store>): (r: Store)
    requires parsed.Some? ==> parsed.value.Valid()
    ensures r.Valid()
    ensures LegacyFree(r)
    ensures parsed.None? ==> r.data == map[]
    ensures parsed.Some? ==> r.order == parsed.value.order
    ensures parsed.Some? ==> r == UpgradeAll(parsed.value)
  {
    match parsed
    case None => Empty
    case Some(d) => UpgradeAll(d)
  }

  /** Upgrading twice is upgrading once. */
  lemma UpgradeIdempotent(s: Store)
    ensures UpgradeAll(UpgradeAll(s)) == UpgradeAll(s)
  {
  }

  /**
   * Saving a store that holds no legacy value and loading it back gives the
   * same store: same keys, same order, same values. (The JSON text is not
   * modelled; the document written is the store itself.)
   */
  lemma SaveLoadRoundTrip(s: Store)
    requires s.Valid()
    requires LegacyFree(s)
    ensures Load(Some(s)) == s
  {
    assert UpgradeAll(s).data == s.data;
  }

  /** After a name is deleted, reading it yields a fresh default record. */
  lemma DeleteThenGetIsDefault(s: Store, name: string)
    ensures GetElo(Delete(s, name), name) == Full(DefaultRecord)
  {
  }

  /**
   * Writing a key keeps the other items where they were; a new key is
   * appended behind them.
   */
  lemma PutKeepsOrder(s: Store, name: string, e: Entry)
    requires s.Valid()
    ensures Put(s, name, e).Valid()
    ensures name in s.data ==>
              (Items(Put(s, name, e)) ==
               seq(|Items(s)|, i requires 0 <= i < |Items(s)| =>
                 if Items(s)[i].name == name then Item(name, e) else Items(s)[i]))
    ensures name !in s.data ==> Items(Put(s, name, e)) == Items(s) + [Item(name, e)]
  {
  }
}

=== FILE: wrappers.dfy ===
/**
 * Optional values and the result of an operation that may raise. A Python
 * exception raised by the rating code becomes a `Failure` carrying what
 * went wrong; `:-` passes it on to the caller as the exception would.
 */
module Wrappers {

  datatype Option<+T> = None | Some(value: T)

  /** The outcome of an operation of the source that may raise. */
  datatype Result<+R, +E> = Success(value: R) | Failure(error: E) {

    predicate IsFailure() {
      Failure?
    }

    function PropagateFailure<U>(): Result<U, E>
      requires Failure?
    {
      Failure(error)
    }

    function Extract(): R
      requires Success?
    {
      value
    }
  }
}
